=== FILE: README.md ===
# SSO redirect URL: a verified model

`sso_url.py` builds a single-sign-on redirect URL for the GoodData platform.
It takes a security token from one of two places. Either it reads the token
from a pre-encrypted file, or it signs a small JSON payload under the
customer's gnupg key and encrypts the signature for GoodData's key. It then
puts the token, the customer's server URL and the target dashboard URL,
percent-encoded, into the query string of the destination URL.

This project models the pure logic of that script in Dafny:

- `UrlQuote` — Python 2.7 `urllib.quote` with its default `safe='/'`. This is
  percent-encoding as in section 2.1 of RFC 3986. ASCII letters, digits,
  `_ . -` and `/` are kept. Every other byte becomes `%XY` with upper-case
  hex. The module also has an RFC 3986 percent-decoder and the exact output
  language (`Canonical`). Quoting is a bijection onto that language.
- `SsoUrl` — `generate_url`, plus a reader `ParseUrl` that takes a generated
  URL apart again.
- `Decimal`, `TokenJson` — the `'%i'` integer formatting and the JSON text
  template that gets signed, each with a parser that reads it back.
- `SecurityToken` — `create_security_token` as a small state machine. The
  gnupg library is abstract: each call returns a `(data, stderr)` pair, and
  the run records every call it makes.
- `SsoScript` — the `__main__` block: choosing the token source with Python
  truthiness, then the whole run.
- `ByteString`, `Wrappers` — byte strings, `str.find`, split/join and
  Option/Result.

Every operation is a Dafny function, except `QuoteBytes`, a loop method that
has no side effects either. So the model is pure and deterministic by
construction. Equal inputs give equal URLs, and nothing outside the
arguments affects the result. The outside world is passed in as parameters:
- the file system is a function from file names to contents;
- `gnupg.GPG(gnupghome=...)` is a function from the home directory to a pair
  of total functions (sign, encrypt);
- the interactive passphrase prompt is the passphrase the operator would
  type.

Python 2 `urllib.quote` has the default `safe='/'`, so `/` is left alone
inside the query values: `quote("http://mydomain.com")` is
`http%3A//mydomain.com`, not `http%3A%2F%2Fmydomain.com`. The model follows
this: `IsSafe` includes `/`, and `QuoteSlashExample` shows it on a short
example.

## Model

| member | source | states |
|---|---|---|
| `UrlQuote.Escape` | sso_url.py:8 | an unsafe byte becomes `%` and two upper-case hex digits that denote that byte |
| `UrlQuote.Quote` | sso_url.py:8 | every byte of a quoted value is a safe byte, `%` or an upper-case hex digit; the output is between one and three times as long as the input |
| `UrlQuote.QuoteAppend` | sso_url.py:8 | quoting works byte by byte: the quote of a concatenation is the concatenation of the quotes |
| `UrlQuote.QuoteBytes` | sso_url.py:8 | the byte-at-a-time loop, `''.join(map(quoter, s))`, computes `Quote` |
| `UrlQuote.DecodeQuote` | sso_url.py:150-152 | percent-decoding a quoted value (section 2.1 of RFC 3986) gives back exactly the original bytes |
| `UrlQuote.QuoteIsCanonical` | sso_url.py:8 | quote output keeps safe bytes as they are and writes every other byte as an upper-case `%XY` of an unsafe byte |
| `UrlQuote.QuoteDecode` | sso_url.py:8 | every such canonical string decodes, and quoting the decoded bytes gives the string back, so quoting is a bijection onto canonical strings |
| `UrlQuote.QuoteUnchanged` | sso_url.py:8 | quoting leaves a string unchanged if and only if all its bytes are safe (Python's fast path) |
| `UrlQuote.QuoteSlashExample` | sso_url.py:8 | `quote("a:/b")` is `a%3A/b`: `/` is kept because of the default `safe='/'` |
| `UrlQuote.QuoteTildeExample` | sso_url.py:8 | `quote("a~b")` is `a%7Eb`: `~` is not always-safe in Python 2.7 |
| `UrlQuote.QuoteHasNoDelimiters` | sso_url.py:150-152 | no `?`, `&`, `=`, `#` or space can appear inside a quoted parameter value |
| `SsoUrl.GenerateUrl` | sso_url.py:145-152 | destination and resource are copied unencoded at the front, the query starts at the last `?` of the URL, and no `#` follows the base |
| `SsoUrl.QueryString` | sso_url.py:150-152 | the query splits at `&` into exactly `sessionId=`, `serverURL=` and `targetURL=` fields with the quoted token, server URL and target URL, in that order |
| `SsoUrl.GenerateUrlTemplate` | sso_url.py:150-152 | the URL is exactly `destination resource ?sessionId= quote(token) &serverURL= quote(server) &targetURL= quote(target)` |
| `SsoUrl.ParseGenerateUrl` | sso_url.py:145-152 | reading a generated URL back gives the base `destination + resource` and the original token, server URL and target URL |
| `Decimal.NatDigits` | sso_url.py:175 | the digits of a natural number read back as that number, and there are no leading zeros: the first digit is `0` only for zero itself |
| `Decimal.FormatInt` | sso_url.py:175 | `'%i'` starts with `-` exactly for negative numbers, has no leading zeros (after the sign), and parses back to the same integer |
| `TokenJson.Payload` | sso_url.py:175 | the payload opens with `{"email": "`, holds the login verbatim right after it, and continues with exactly `","validity": `, the `'%i'` digits of the validity and `}` |
| `TokenJson.PayloadParses` | sso_url.py:175 | a payload whose login has no `"` reads back as exactly that login and validity |
| `TokenJson.PayloadRoundTrip` | sso_url.py:175 | the payload reads back as its login and validity if and only if the login has no `"`, because the login is not escaped |
| `SecurityToken.NeedsPassphrase` | sso_url.py:182 | a retry is needed exactly when `NEED_PASSPHRASE` occurs somewhere in gnupg's stderr |
| `ByteString.Find` | sso_url.py:182 | `str.find` returns -1 exactly when the needle occurs nowhere, and otherwise its first position |
| `SecurityToken.ErrorMessage` | sso_url.py:193-204 | an empty signature raises `Signed message is empty, see error message:` followed by gnupg's stderr, an empty ciphertext raises `Encrypted message is empty, see error message:` followed by it |
| `SecurityToken.CreateSecurityToken` | sso_url.py:165-206 | the run always finishes, after one to four calls to gnupg and the prompt, the first being the signing without a passphrase; a token it returns is never empty |
| `SecurityToken.Step` | sso_url.py:177-206 | each stage of the sign/retry/encrypt run moves strictly forward and only appends to the calls made |
| `SecurityToken.SigningSteps` | sso_url.py:177-191 | the first sign has no passphrase; if its stderr has NEED_PASSPHRASE, a prompt and a second sign with the passphrase follow and the second result replaces the first; otherwise the first sign is the only call and its result is kept; nothing is encrypted yet |
| `SecurityToken.CheckingStep` | sso_url.py:193-206 | an empty signature aborts with its stderr and makes no call; otherwise exactly one call follows, an encryption for the recipient with full trust; an empty ciphertext aborts with its stderr; otherwise the ciphertext is the result |
| `SecurityToken.CreateSecurityTokenFlow` | sso_url.py:177-206 | one or two sign attempts, the second exactly when the first reports NEED_PASSPHRASE; the whole call trace is fixed, so the prompt happens only before the second attempt; the last signature decides: empty means abort with no encryption, otherwise one encryption whose data is the token, and an empty ciphertext is an error |
| `SecurityToken.NoThirdAttempt` | sso_url.py:181-191 | when the retry also reports NEED_PASSPHRASE there is still no third attempt, and an empty retry result aborts |
| `SsoScript.SelectTokenSource` | sso_url.py:218-231 | a truthy encrypted file wins; otherwise both customer user and login must be truthy; otherwise the error, with `None` and `""` both counting as absent |
| `SsoScript.ScriptErrorMessage` | sso_url.py:228-231 | a missing token source aborts with the fixed text naming `--encrypted-file` and `--login AND --customer--user`; a crypto failure aborts with the token creation's own exception text, which ends with gnupg's stderr |
| `SsoScript.RunScript` | sso_url.py:215-238 | the file source reads one file and never calls gnupg; a missing source fails before any file or gnupg call; signing reads no file, fails exactly when token creation fails, and otherwise builds the URL from the token that creation returned; every URL produced reads back as the requested base, server URL and target URL |
| `SsoScript.FileTakesPrecedence` | sso_url.py:219-227 | with an encrypted file given, the login and customer user do not change the run, and gnupg is never called |

## Left out

- Argument parsing, help text and defaults (sso_url.py:37-142). They are argparse configuration. The default validity, `time() + 24*60*60`, depends on the clock and is a float that `'%i'` truncates. The model takes validity as an integer.
- The cryptography inside gnupg (sso_url.py:171-172, 177, 184-188, 198). It is a foreign library. Its calls are abstract functions returning `(data, stderr)`.
- The `getpass` prompt (sso_url.py:183). It is terminal I/O. It is a `PromptPassphrase` entry in the call trace, plus the passphrase as a parameter.
- Clearing the passphrase (sso_url.py:190). It has no observable effect in a value model.
- The failure of opening or reading the token file (sso_url.py:155-162). It is I/O. Reading is a total function from file names to contents, so IOError is not modelled.
- Printing and opening the browser (sso_url.py:209-212, 240-244). These are terminal and OS side effects.
- `quote(None)` raising TypeError. It cannot happen here: every value the script quotes is a string.
- TokenJson.ParsePayload: it reads the payload by its template and is not a full JSON parser. For instance, a backslash in the login is not treated as a JSON escape.

=== FILE: bytestring.dfy ===
/**
 Python 2 `str` values are byte strings. This module fixes the byte type,
 turns ASCII literals into byte strings, and provides the searching and
 splitting operations the rest of the model is stated with.
 */
module ByteString {
  import opened Wrappers

  newtype byte = x: int | 0 <= x < 256

  type Bytes = seq<byte>

  predicate IsAscii(s: string) {
    forall i | 0 <= i < |s| :: s[i] as int < 128
  }

  /** The byte string spelled by an ASCII literal, one byte per character. */
  function Ascii(s: string): (r: Bytes)
    requires IsAscii(s)
    ensures |r| == |s|
  {
    seq(|s|, i requires 0 <= i < |s| => s[i] as int as byte)
  }

  /** The byte of one ASCII character. */
  function Byte(c: char): byte
    requires c as int < 128
  {
    c as int as byte
  }

  /** The first position of `b` in `s`, if any. */
  function IndexOf(s: Bytes, b: byte): (r: Option<nat>)
    ensures r.None? <==> b !in s
    ensures r.Some? ==> r.value < |s| && s[r.value] == b && b !in s[..r.value]
  {
    if |s| == 0 then None
    else if s[0] == b then Some(0)
    else
      match IndexOf(s[1..], b)
      case None => None
      case Some(k) =>
        assert s[..k + 1] == [s[0]] + s[1..][..k];
        Some(k + 1)
  }

  /** The last position of `b` in `s`, if any. */
  function LastIndexOf(s: Bytes, b: byte): (r: Option<nat>)
    ensures r.None? <==> b !in s
    ensures r.Some? ==> r.value < |s| && s[r.value] == b && b !in s[r.value + 1..]
  {
    if |s| == 0 then None
    else if s[|s| - 1] == b then Some(|s| - 1)
    else
      match LastIndexOf(s[..|s| - 1], b)
      case None =>
        assert s == s[..|s| - 1] + [s[|s| - 1]];
        None
      case Some(k) =>
        assert s[k + 1..] == s[..|s| - 1][k + 1..] + [s[|s| - 1]];
        Some(k)
  }

  /** The one occurrence of `b` in `a + [b] + c` when neither side holds it. */
  lemma IndexOfSeparator(a: Bytes, b: byte, c: Bytes)
    requires b !in a
    ensures IndexOf(a + [b] + c, b) == Some(|a|)
  {
    var s := a + [b] + c;
    assert s[|a|] == b;
  }

  lemma LastIndexOfSeparator(a: Bytes, b: byte, c: Bytes)
    requires b !in c
    ensures LastIndexOf(a + [b] + c, b) == Some(|a|)
  {
    var s := a + [b] + c;
    assert s[|a|] == b;
    assert s[|a| + 1..] == c;
  }

  /** `s` without its prefix `p`, if it starts with `p`. */
  function StripPrefix(p: Bytes, s: Bytes): (r: Option<Bytes>)
    ensures r.Some? <==> p <= s
    ensures r.Some? ==> s == p + r.value
  {
    if p <= s then
      assert s == p + s[|p|..];
      Some(s[|p|..])
    else None
  }

  /** `s` without its suffix `p`, if it ends with `p`. */
  function StripSuffix(p: Bytes, s: Bytes): (r: Option<Bytes>)
    ensures r.Some? ==> s == r.value + p
    ensures (exists t :: s == t + p) ==> r.Some?
  {
    if |p| <= |s| && s[|s| - |p|..] == p then
      assert s == s[..|s| - |p|] + p;
      Some(s[..|s| - |p|])
    else None
  }

  lemma SplitConcat(a: Bytes, b: Bytes)
    ensures (a + b)[..|a|] == a && (a + b)[|a|..] == b
  {
  }

  lemma StripPrefixOf(p: Bytes, t: Bytes)
    ensures StripPrefix(p, p + t) == Some(t)
  {
    assert p <= p + t;
  }

  lemma StripSuffixOf(p: Bytes, t: Bytes)
    ensures StripSuffix(p, t + p) == Some(t)
  {
    assert (t + p)[|t|..] == p;
  }

  /** `n` occurs in `h` starting at position `i`. */
  predicate OccursAt(h: Bytes, n: Bytes, i: int) {
    0 <= i && i + |n| <= |h| && h[i..i + |n|] == n
  }

  lemma OccursAtTail(h: Bytes, n: Bytes, i: int)
    requires |h| > 0 && i >= 0
    ensures OccursAt(h, n, i + 1) <==> OccursAt(h[1..], n, i)
  {
    if i + 1 + |n| <= |h| {
      assert h[i + 1..i + 1 + |n|] == h[1..][i..i + |n|];
    }
  }

  /**
   Python's `str.find`: the least position where `n` occurs in `h`,
   or -1 when it occurs nowhere.
   */
  function Find(h: Bytes, n: Bytes): (r: int)
    ensures -1 <= r
    ensures r == -1 <==> forall i :: !OccursAt(h, n, i)
    ensures r >= 0 ==> OccursAt(h, n, r) && forall i | 0 <= i < r :: !OccursAt(h, n, i)
    decreases |h|
  {
    if |h| < |n| then -1
    else if h[..|n|] == n then
      assert OccursAt(h, n, 0);
      0
    else
      var r := Find(h[1..], n);
      assert forall i | i >= 0 :: OccursAt(h, n, i + 1) <==> OccursAt(h[1..], n, i) by {
        forall i | i >= 0 ensures OccursAt(h, n, i + 1) <==> OccursAt(h[1..], n, i) {
          OccursAtTail(h, n, i);
        }
      }
      assert !OccursAt(h, n, 0);
      if r == -1 then
        assert forall i :: !OccursAt(h, n, i) by {
          forall i ensures !OccursAt(h, n, i) {
            if i > 0 {
              assert !OccursAt(h[1..], n, i - 1);
            }
          }
        }
        -1
      else
        assert forall i | 0 <= i < r + 1 :: !OccursAt(h, n, i) by {
          forall i | 0 <= i < r + 1 ensures !OccursAt(h, n, i) {
            if i > 0 {
              assert !OccursAt(h[1..], n, i - 1);
            }
          }
        }
        r + 1
  }

  /** Joins non-empty `parts` with `sep` between neighbours. */
  function Join(parts: seq<Bytes>, sep: byte): Bytes
    requires |parts| >= 1
  {
    if |parts| == 1 then parts[0] else parts[0] + [sep] + Join(parts[1..], sep)
  }

  /** Splits `s` at every `sep`; the pieces never contain `sep` and join back to `s`. */
  function Split(s: Bytes, sep: byte): (parts: seq<Bytes>)
    ensures |parts| >= 1
    ensures forall i | 0 <= i < |parts| :: sep !in parts[i]
    ensures Join(parts, sep) == s
    decreases |s|
  {
    match IndexOf(s, sep)
    case None => [s]
    case Some(k) =>
      var rest := Split(s[k + 1..], sep);
      assert s == s[..k] + [sep] + s[k + 1..];
      [s[..k]] + rest
  }

  lemma SplitWithout(a: Bytes, sep: byte)
    requires sep !in a
    ensures Split(a, sep) == [a]
  {
  }

  lemma SplitAtSeparator(a: Bytes, sep: byte, c: Bytes)
    requires sep !in a
    ensures Split(a + [sep] + c, sep) == [a] + Split(c, sep)
  {
    var s := a + [sep] + c;
    IndexOfSeparator(a, sep, c);
    assert s[..|a|] == a;
    assert s[|a| + 1..] == c;
  }
}

=== FILE: decimal.dfy ===
/** Python's `'%i'` formatting of an integer, and the matching parser. */
module Decimal {
  import opened Wrappers
  import opened ByteString

  const Minus: byte := Byte('-')

  predicate IsDigit(b: byte) {
    Byte('0') <= b <= Byte('9')
  }

  function DigitByte(d: int): (b: byte)
    requires 0 <= d < 10
    ensures IsDigit(b)
  {
    (Byte('0') as int + d) as byte
  }

  function DigitValue(b: byte): (d: int)
    requires IsDigit(b)
    ensures 0 <= d < 10
  {
    b as int - Byte('0') as int
  }

  predicate AllDigits(s: Bytes) {
    forall i | 0 <= i < |s| :: IsDigit(s[i])
  }

  /** The value of a string of decimal digits, most significant first. */
  function DigitsValue(s: Bytes): nat
    requires AllDigits(s)
  {
    if |s| == 0 then 0 else DigitsValue(s[..|s| - 1]) * 10 + DigitValue(s[|s| - 1])
  }

  /** Parses what `'%i'` writes: an optional `-` and at least one digit. */
  function ParseInt(s: Bytes): (r: Option<int>)
  {
    if |s| > 0 && s[0] == Minus then
      if |s| > 1 && AllDigits(s[1..]) then Some(-(DigitsValue(s[1..]) as int)) else None
    else if |s| > 0 && AllDigits(s) then Some(DigitsValue(s))
    else None
  }

  /** The decimal digits of `n` without leading zeros. */
  function NatDigits(n: nat): (r: Bytes)
    ensures |r| >= 1 && AllDigits(r)
    ensures DigitsValue(r) == n
    ensures r[0] == DigitByte(0) ==> n == 0
  {
    if n < 10 then [DigitByte(n)]
    else
      var r := NatDigits(n / 10) + [DigitByte(n % 10)];
      assert r[..|r| - 1] == NatDigits(n / 10);
      r
  }

  /** `'%i' % n`: a leading `-` for negative numbers, then the digits of `|n|`. */
  function FormatInt(n: int): (r: Bytes)
    ensures |r| >= 1
    ensures r[0] == Minus <==> n < 0
    ensures r[0] == DigitByte(0) ==> r == [DigitByte(0)]
    ensures r[0] == Minus ==> |r| >= 2 && r[1] != DigitByte(0)
    ensures ParseInt(r) == Some(n)
  {
    if n < 0 then [Minus] + NatDigits(-n)
    else NatDigits(n)
  }
}

=== FILE: payload.dfy ===
/**
 The JSON text `create_security_token` signs: the login and the validity
 timestamp are put into a fixed template, the login verbatim and unescaped.
 */
module TokenJson {
  import opened Wrappers
  import opened ByteString
  import opened Decimal

  const DoubleQuote: byte := Byte('"')
  const EmailOpen: Bytes := Ascii("{\"email\": \"")
  const ValidityOpen: Bytes := Ascii("\",\"validity\": ")
  const Close: Bytes := Ascii("}")

  /** What the payload asserts: whose token it is and until when it is valid. */
  datatype TokenRequest = TokenRequest(email: Bytes, validity: int)

  /** `'{"email": "%s","validity": %i}' % (login, validity)`. */
  function Payload(login: Bytes, validity: int): (json: Bytes)
    ensures |json| == |EmailOpen| + |login| + |ValidityOpen| + |FormatInt(validity)| + 1
    ensures json[..|EmailOpen|] == EmailOpen
    ensures json[|EmailOpen|..|EmailOpen| + |login|] == login
    ensures json[|EmailOpen| + |login|..] == ValidityOpen + FormatInt(validity) + Close
    ensures json[|json| - 1] == Byte('}')
  {
    EmailOpen + login + ValidityOpen + FormatInt(validity) + Close
  }

  /**
   Reads a payload back by the template: the email runs from the opening
   quote to the next `"`, and what lies between `"validity": ` and the final
   `}` must be an integer.
   */
  function ParsePayload(json: Bytes): (r: Option<TokenRequest>)
    ensures r.Some? ==> DoubleQuote !in r.value.email
  {
    var rest :- StripPrefix(EmailOpen, json);
    ParseEmailField(rest)
  }

  function ParseEmailField(rest: Bytes): (r: Option<TokenRequest>)
    ensures r.Some? ==> DoubleQuote !in r.value.email
  {
    var k :- IndexOf(rest, DoubleQuote);
    var validity :- ParseValidityField(rest[k..]);
    Some(TokenRequest(rest[..k], validity))
  }

  function ParseValidityField(tail: Bytes): Option<int> {
    var body :- StripPrefix(ValidityOpen, tail);
    var digits :- StripSuffix(Close, body);
    ParseInt(digits)
  }

  lemma PayloadParses(login: Bytes, validity: int)
    requires DoubleQuote !in login
    ensures ParsePayload(Payload(login, validity)) == Some(TokenRequest(login, validity))
  {
    var digits := FormatInt(validity);
    var field := ValidityOpen + (digits + Close);
    assert Payload(login, validity) == EmailOpen + (login + field);
    StripPrefixOf(EmailOpen, login + field);
    ValidityFieldParses(digits);
    assert field[0] == DoubleQuote;
    EmailFieldParses(login, field, validity);
  }

  lemma EmailFieldParses(login: Bytes, field: Bytes, validity: int)
    requires DoubleQuote !in login
    requires |field| > 0 && field[0] == DoubleQuote
    requires ParseValidityField(field) == Some(validity)
    ensures ParseEmailField(login + field) == Some(TokenRequest(login, validity))
  {
    assert field == [DoubleQuote] + field[1..];
    assert login + field == login + [DoubleQuote] + field[1..];
    IndexOfSeparator(login, DoubleQuote, field[1..]);
    SplitConcat(login, field);
  }

  lemma ValidityFieldParses(digits: Bytes)
    ensures ParseValidityField(ValidityOpen + (digits + Close)) == ParseInt(digits)
  {
    StripPrefixOf(ValidityOpen, digits + Close);
    StripSuffixOf(Close, digits);
  }

  /**
   The payload reads back as the login and validity it was built from exactly
   when the login holds no `"`: the login is not escaped, so a quote in it
   ends the email field early.
   */
  lemma PayloadRoundTrip(login: Bytes, validity: int)
    ensures ParsePayload(Payload(login, validity)) == Some(TokenRequest(login, validity))
      <==> DoubleQuote !in login
  {
    if DoubleQuote !in login {
      PayloadParses(login, validity);
    }
  }
}

=== FILE: quote.dfy ===
/**
 Python 2.7 `urllib.quote(s, safe='/')`: percent-encoding as in section 2.1
 of RFC 3986. ASCII letters, digits and `_ . -` are always kept, `/` is kept
 because it is the default `safe` argument, and every other byte becomes `%`
 followed by two upper-case hexadecimal digits. `~` is not in Python 2.7's
 always-safe set, so it is encoded.
 */
module UrlQuote {
  import opened Wrappers
  import opened ByteString

  const Percent: byte := Byte('%')
  const Slash: byte := Byte('/')

  /** Python 2.7's `always_safe`: ASCII letters, digits and `_ . -`. */
  predicate IsAlwaysSafe(b: byte) {
    || Byte('A') <= b <= Byte('Z')
    || Byte('a') <= b <= Byte('z')
    || Byte('0') <= b <= Byte('9')
    || b == Byte('_') || b == Byte('.') || b == Byte('-')
  }

  /** The bytes `quote` copies unchanged: the always-safe set plus the default `safe='/'`. */
  predicate IsSafe(b: byte) {
    IsAlwaysSafe(b) || b == Slash
  }

  predicate IsUpperHex(b: byte) {
    Byte('0') <= b <= Byte('9') || Byte('A') <= b <= Byte('F')
  }

  /** A hexadecimal digit as RFC 3986 HEXDIG reads it: either case. */
  predicate IsHex(b: byte) {
    IsUpperHex(b) || Byte('a') <= b <= Byte('f')
  }

  /** The upper-case digit Python's `'%02X'` writes for `n`. */
  function HexDigit(n: int): (d: byte)
    requires 0 <= n < 16
    ensures IsUpperHex(d)
  {
    if n < 10 then (Byte('0') as int + n) as byte else (Byte('A') as int + n - 10) as byte
  }

  function HexValue(d: byte): (n: int)
    requires IsHex(d)
    ensures 0 <= n < 16
  {
    if d <= Byte('9') then d as int - Byte('0') as int
    else if d <= Byte('F') then d as int - Byte('A') as int + 10
    else d as int - Byte('a') as int + 10
  }

  lemma HexValueOfDigit(n: int)
    requires 0 <= n < 16
    ensures HexValue(HexDigit(n)) == n
  {
  }

  lemma HexDigitOfValue(d: byte)
    requires IsUpperHex(d)
    ensures HexDigit(HexValue(d)) == d
  {
  }

  /** The byte a `%XY` triplet denotes. */
  function HexPair(hi: byte, lo: byte): byte
    requires IsHex(hi) && IsHex(lo)
  {
    (HexValue(hi) * 16 + HexValue(lo)) as byte
  }

  /** The `%XY` triplet of one byte. */
  function Escape(b: byte): (t: Bytes)
    ensures |t| == 3 && t[0] == Percent && IsUpperHex(t[1]) && IsUpperHex(t[2])
    ensures HexPair(t[1], t[2]) == b
  {
    HexValueOfDigit(b as int / 16);
    HexValueOfDigit(b as int % 16);
    [Percent, HexDigit(b as int / 16), HexDigit(b as int % 16)]
  }

  /** Python 2.7's per-byte `safe_map` entry. */
  function QuoteByte(b: byte): Bytes {
    if IsSafe(b) then [b] else Escape(b)
  }

  /** The bytes that can appear in the output of `quote`. */
  predicate InQuotedAlphabet(b: byte) {
    IsSafe(b) || b == Percent || IsUpperHex(b)
  }

  predicate AllInQuotedAlphabet(t: Bytes) {
    forall i | 0 <= i < |t| :: InQuotedAlphabet(t[i])
  }

  /** `urllib.quote(s)` with the default `safe='/'`. */
  function Quote(s: Bytes): (r: Bytes)
    ensures |s| <= |r| <= 3 * |s|
    ensures AllInQuotedAlphabet(r)
  {
    if |s| == 0 then [] else QuoteByte(s[0]) + Quote(s[1..])
  }

  lemma {:induction false} QuoteAppend(a: Bytes, b: Bytes)
    ensures Quote(a + b) == Quote(a) + Quote(b)
    decreases |a|
  {
    if |a| == 0 {
      assert a + b == b;
    } else {
      var ab := a + b;
      assert ab[0] == a[0];
      assert ab[1..] == a[1..] + b;
      QuoteAppend(a[1..], b);
      assert Quote(ab) == QuoteByte(a[0]) + (Quote(a[1..]) + Quote(b));
    }
  }

  /**
   The loop Python 2.7 runs, `''.join(map(quoter, s))`, one byte at a time;
   it computes `Quote(s)`.
   */
  method QuoteBytes(s: Bytes) returns (r: Bytes)
    ensures r == Quote(s)
  {
    r := [];
    var i := 0;
    while i < |s|
      invariant 0 <= i <= |s|
      invariant r == Quote(s[..i])
    {
      assert s[..i + 1] == s[..i] + [s[i]];
      QuoteAppend(s[..i], [s[i]]);
      r := r + QuoteByte(s[i]);
      i := i + 1;
    }
    assert s[..|s|] == s;
  }

  /**
   Percent-decoding as section 2.1 of RFC 3986 describes it: every `%` starts
   a triplet with two hexadecimal digits of either case; a `%` that does not
   is malformed.
   */
  function PercentDecode(t: Bytes): (r: Option<Bytes>)
    decreases |t|
  {
    if |t| == 0 then Some([])
    else if t[0] == Percent then
      if |t| >= 3 && IsHex(t[1]) && IsHex(t[2]) then
        var rest :- PercentDecode(t[3..]);
        Some([HexPair(t[1], t[2])] + rest)
      else None
    else
      var rest :- PercentDecode(t[1..]);
      Some([t[0]] + rest)
  }

  lemma DecodeQuoteByte(b: byte, t: Bytes)
    ensures PercentDecode(QuoteByte(b) + t) ==
      (match PercentDecode(t) case None => None case Some(u) => Some([b] + u))
  {
    var q := QuoteByte(b) + t;
    if IsSafe(b) {
      assert q[1..] == t;
    } else {
      assert q[3..] == t;
    }
  }

  /** Decoding a quoted value gives back the original bytes. */
  lemma {:induction false} DecodeQuote(s: Bytes)
    ensures PercentDecode(Quote(s)) == Some(s)
    decreases |s|
  {
    if |s| > 0 {
      DecodeQuote(s[1..]);
      DecodeQuoteByte(s[0], Quote(s[1..]));
      assert s == [s[0]] + s[1..];
    }
  }

  /**
   The exact shape of `quote`'s output: safe bytes stand for themselves and
   every other byte is a `%XY` triplet in upper case that denotes an unsafe
   byte.
   */
  predicate Canonical(t: Bytes)
    decreases |t|
  {
    || |t| == 0
    || (IsSafe(t[0]) && Canonical(t[1..]))
    || (&& |t| >= 3 && t[0] == Percent && IsUpperHex(t[1]) && IsUpperHex(t[2])
        && !IsSafe(HexPair(t[1], t[2])) && Canonical(t[3..]))
  }

  lemma {:induction false} QuoteIsCanonical(s: Bytes)
    ensures Canonical(Quote(s))
    decreases |s|
  {
    if |s| > 0 {
      QuoteIsCanonical(s[1..]);
      var q := Quote(s);
      if IsSafe(s[0]) {
        assert q[1..] == Quote(s[1..]);
      } else {
        assert q[3..] == Quote(s[1..]);
      }
    }
  }

  /**
   Every canonical string is the quotation of exactly the bytes it decodes to,
   so `Quote` is a bijection from all byte strings onto `Canonical` strings.
   */
  lemma {:induction false} QuoteDecode(t: Bytes)
    requires Canonical(t)
    ensures PercentDecode(t).Some? && Quote(PercentDecode(t).value) == t
    decreases |t|
  {
    if |t| > 0 {
      if IsSafe(t[0]) {
        QuoteDecode(t[1..]);
        var u := PercentDecode(t[1..]).value;
        assert PercentDecode(t).value == [t[0]] + u;
        assert ([t[0]] + u)[1..] == u;
        assert t == [t[0]] + t[1..];
      } else {
        QuoteDecode(t[3..]);
        var u := PercentDecode(t[3..]).value;
        var b := HexPair(t[1], t[2]);
        assert PercentDecode(t).value == [b] + u;
        assert ([b] + u)[1..] == u;
        HexDigitOfValue(t[1]);
        HexDigitOfValue(t[2]);
        assert b as int / 16 == HexValue(t[1]) && b as int % 16 == HexValue(t[2]);
        assert t == t[..3] + t[3..];
      }
    }
  }

  predicate AllSafe(s: Bytes) {
    forall i | 0 <= i < |s| :: IsSafe(s[i])
  }

  /**
   Python's fast path: a string of safe bytes is returned as it is, and only
   such a string is left unchanged.
   */
  lemma {:induction false} QuoteUnchanged(s: Bytes)
    ensures Quote(s) == s <==> AllSafe(s)
    decreases |s|
  {
    if |s| > 0 {
      QuoteUnchanged(s[1..]);
      if IsSafe(s[0]) {
        assert s == [s[0]] + s[1..];
        assert AllSafe(s) <==> AllSafe(s[1..]);
        assert Quote(s) == s <==> Quote(s[1..]) == s[1..] by {
          assert Quote(s) == [s[0]] + Quote(s[1..]);
          if Quote(s) == s {
            assert Quote(s)[1..] == s[1..];
          }
        }
      } else {
        assert |Quote(s)| > |s|;
      }
    }
  }

  /** `quote("a:/b")` is `a%3A/b`: `:` is escaped while `/` is kept, as in `http%3A//host`. */
  lemma QuoteSlashExample()
    ensures Quote(Ascii("a:/b")) == Ascii("a%3A/b")
  {
    assert Ascii("a:/b") == [Byte('a'), Byte(':'), Byte('/'), Byte('b')];
    assert Quote(Ascii("a:/b")) == [Byte('a')] + Quote([Byte(':'), Byte('/'), Byte('b')]);
    assert Quote([Byte(':'), Byte('/'), Byte('b')]) == Ascii("%3A") + Quote([Byte('/'), Byte('b')]);
    assert Quote([Byte('/'), Byte('b')]) == [Byte('/')] + Quote([Byte('b')]);
  }

  /** `quote("a~b")` is `a%7Eb`: Python 2.7 does not count `~` as safe. */
  lemma QuoteTildeExample()
    ensures Quote(Ascii("a~b")) == Ascii("a%7Eb")
  {
    assert Ascii("a~b") == [Byte('a'), Byte('~'), Byte('b')];
    assert Quote(Ascii("a~b")) == [Byte('a')] + Quote([Byte('~'), Byte('b')]);
    assert Quote([Byte('~'), Byte('b')]) == Ascii("%7E") + Quote([Byte('b')]);
  }

  /** The bytes that delimit a URL's query and fragment never occur in a quoted value. */
  lemma QuoteHasNoDelimiters(s: Bytes)
    ensures Byte('?') !in Quote(s) && Byte('&') !in Quote(s) && Byte('=') !in Quote(s)
    ensures Byte('#') !in Quote(s) && Byte(' ') !in Quote(s)
  {
  }
}

=== FILE: script.dfy ===
/**
 The script's `__main__` block: choose where the security token comes from,
 obtain it, and build the redirect URL. The file system, the gnupg library
 and the passphrase prompt are parameters of the run.
 */
module SsoScript {
  import opened Wrappers
  import opened ByteString
  import opened SecurityToken
  import opened SsoUrl

  /** The parsed command line; an option that was not given is `None`. */
  datatype Arguments = Arguments(
    destination: Bytes,
    serverUrl: Bytes,
    targetUrl: Bytes,
    customerResource: Bytes,
    encryptedFile: Option<Bytes>,
    gnupgHome: Option<Bytes>,
    customerUser: Option<Bytes>,
    login: Option<Bytes>,
    gooddataUser: Bytes,
    validity: int)

  /** Python truthiness of an optional string: neither `None` nor empty. */
  predicate Truthy(o: Option<Bytes>) {
    o.Some? && |o.value| > 0
  }

  datatype TokenSource = FromFile(path: Bytes) | FromSigning(customerUser: Bytes, login: Bytes)

  datatype ScriptError = MissingTokenSource | Crypto(tokenError: TokenError)

  // Two pieces, as the source writes two adjacent string literals; each also
  // stays short enough for the verifier to check that it is ASCII.
  const MissingTokenSourceText: Bytes :=
    Ascii("you must provide either --encrypted-file or") + Ascii(" --login AND --customer--user")

  /** The text of the exception the script aborts with; a crypto error ends with gnupg's diagnostic. */
  function ScriptErrorMessage(e: ScriptError): (r: Bytes)
    ensures e.MissingTokenSource? ==> r == MissingTokenSourceText
    ensures e.Crypto? ==> r == ErrorMessage(e.tokenError)
    ensures e.Crypto? ==> |e.tokenError.stderr| <= |r| && r[|r| - |e.tokenError.stderr|..] == e.tokenError.stderr
  {
    match e
    case MissingTokenSource => MissingTokenSourceText
    case Crypto(tokenError) => ErrorMessage(tokenError)
  }

  /**
   The token source: a truthy encrypted file wins; otherwise both the
   customer user and the login must be truthy; otherwise it is an error.
   */
  function SelectTokenSource(args: Arguments): (r: Result<TokenSource, ScriptError>)
    ensures Truthy(args.encryptedFile) ==> r == Success(FromFile(args.encryptedFile.value))
    ensures r.Success? && r.value.FromSigning?
      <==> !Truthy(args.encryptedFile) && Truthy(args.customerUser) && Truthy(args.login)
    ensures r.Success? && r.value.FromSigning? ==>
      r.value == FromSigning(args.customerUser.value, args.login.value)
    ensures r.Failure?
      <==> !Truthy(args.encryptedFile) && !(Truthy(args.customerUser) && Truthy(args.login))
    ensures r.Failure? ==> r.error == MissingTokenSource
  {
    if Truthy(args.encryptedFile) then Success(FromFile(args.encryptedFile.value))
    else if Truthy(args.customerUser) && Truthy(args.login) then
      Success(FromSigning(args.customerUser.value, args.login.value))
    else Failure(MissingTokenSource)
  }

  /** What the script depends on outside itself. */
  datatype Environment = Environment(
    readFile: Bytes -> Bytes,           // the contents of a file, by name
    openGpg: Option<Bytes> -> Gpg,      // `gnupg.GPG(gnupghome=...)`
    passphrase: Bytes)                  // what the operator types at the prompt

  /** The URL or the error, with the files read and the gnupg calls and prompts made on the way. */
  datatype Invocation = Invocation(url: Result<Bytes, ScriptError>, filesRead: seq<Bytes>, calls: seq<Call>)

  function SigningSession(args: Arguments, env: Environment, customerUser: Bytes, login: Bytes): Session {
    Session(env.openGpg(args.gnupgHome), env.passphrase, login, args.gooddataUser, customerUser, args.validity)
  }

  /** The token, the calls made to obtain it, and the URL built from it. */
  function RunScript(args: Arguments, env: Environment): (inv: Invocation)
    ensures Truthy(args.encryptedFile) ==>
      var path := args.encryptedFile.value;
      inv == Invocation(Success(GenerateUrl(args.destination, args.customerResource, args.serverUrl,
                                            args.targetUrl, env.readFile(path))), [path], [])
    ensures SelectTokenSource(args).Failure? ==> inv == Invocation(Failure(MissingTokenSource), [], [])
    ensures SelectTokenSource(args).Success? && SelectTokenSource(args).value.FromSigning? ==>
      var source := SelectTokenSource(args).value;
      var run := CreateSecurityToken(SigningSession(args, env, source.customerUser, source.login));
      && inv.filesRead == []
      && inv.calls == run.calls
      && (run.stage.outcome.Failure? <==> inv.url.Failure?)
      && (inv.url.Failure? ==> inv.url.error == Crypto(run.stage.outcome.error))
      && (inv.url.Success? ==>
            inv.url.value == GenerateUrl(args.destination, args.customerResource, args.serverUrl,
                                         args.targetUrl, run.stage.outcome.value))
    ensures inv.url.Success? ==>
      exists token :: ParseUrl(inv.url.value) ==
        Some(SsoLink(args.destination + args.customerResource, token, args.serverUrl, args.targetUrl))
  {
    match SelectTokenSource(args)
    case Failure(e) => Invocation(Failure(e), [], [])
    case Success(FromFile(path)) =>
      var token := env.readFile(path);
      ParseGenerateUrl(args.destination, args.customerResource, args.serverUrl, args.targetUrl, token);
      Invocation(Success(GenerateUrl(args.destination, args.customerResource, args.serverUrl,
                                     args.targetUrl, token)), [path], [])
    case Success(FromSigning(customerUser, login)) =>
      var run := CreateSecurityToken(SigningSession(args, env, customerUser, login));
      CreateSecurityTokenFlow(SigningSession(args, env, customerUser, login));
      match run.stage.outcome
      case Failure(e) => Invocation(Failure(Crypto(e)), [], run.calls)
      case Success(token) =>
        ParseGenerateUrl(args.destination, args.customerResource, args.serverUrl, args.targetUrl, token);
        Invocation(Success(GenerateUrl(args.destination, args.customerResource, args.serverUrl,
                                       args.targetUrl, token)), [], run.calls)
  }

  /**
   With an encrypted file given, the login and customer user do not matter
   and gnupg is never called.
   */
  lemma FileTakesPrecedence(args: Arguments, env: Environment, customerUser: Option<Bytes>, login: Option<Bytes>)
    requires Truthy(args.encryptedFile)
    ensures RunScript(args.(customerUser := customerUser, login := login), env) == RunScript(args, env)
    ensures RunScript(args, env).calls == []
  {
  }
}

=== FILE: token.dfy ===
/**
 `create_security_token`: sign the JSON payload under the customer's key,
 sign once more with a passphrase if gnupg asked for one, then encrypt the
 signed text for the recipient key. The gnupg library is abstract: each call
 returns a pair of `data` and `stderr`, and the model records which calls
 were made, in order.
 */
module SecurityToken {
  import opened Wrappers
  import opened ByteString
  import opened TokenJson

  /** The `data` and `stderr` attributes of a gnupg result. */
  datatype GpgResult = GpgResult(data: Bytes, stderr: Bytes)

  /** The arguments of `gpg.sign(message, keyid=..., clearsign=..., passphrase=...)`. */
  datatype SignRequest = SignRequest(message: Bytes, keyid: Bytes, clearsign: bool, passphrase: Option<Bytes>)

  /** The arguments of `gpg.encrypt(data, recipients=..., always_trust=...)`. */
  datatype EncryptRequest = EncryptRequest(data: Bytes, recipients: Bytes, alwaysTrust: bool)

  /** A gnupg instance, as the results it gives for each request. */
  datatype Gpg = Gpg(sign: SignRequest -> GpgResult, encrypt: EncryptRequest -> GpgResult)

  /** The effects of one run, in the order they happen. */
  datatype Call = Sign(signRequest: SignRequest) | PromptPassphrase | Encrypt(encryptRequest: EncryptRequest)

  datatype TokenError = SignedEmpty(stderr: Bytes) | EncryptedEmpty(stderr: Bytes)

  const SignedEmptyText: Bytes := Ascii("Signed message is empty, see error message:")
  // Written in two pieces: `Ascii` checks its argument byte by byte, and the
  // verifier gives up on that check for one literal this long.
  const EncryptedEmptyText: Bytes := Ascii("Encrypted message is empty, ") + Ascii("see error message:")

  /** The text of the exception raised for `e`; it ends with gnupg's diagnostic. */
  function ErrorMessage(e: TokenError): (msg: Bytes)
    ensures e.SignedEmpty? ==> msg == SignedEmptyText + e.stderr
    ensures e.EncryptedEmpty? ==> msg == EncryptedEmptyText + e.stderr
    ensures |e.stderr| <= |msg| && msg[|msg| - |e.stderr|..] == e.stderr
  {
    var prefix := if e.SignedEmpty? then SignedEmptyText else EncryptedEmptyText;
    SplitConcat(prefix, e.stderr);
    prefix + e.stderr
  }

  const NeedPassphraseMarker: Bytes := Ascii("NEED_PASSPHRASE")

  /** `error.find("NEED_PASSPHRASE") != -1`: gnupg's stderr mentions the marker somewhere. */
  predicate NeedsPassphrase(stderr: Bytes)
    ensures NeedsPassphrase(stderr) <==> exists i :: OccursAt(stderr, NeedPassphraseMarker, i)
  {
    Find(stderr, NeedPassphraseMarker) != -1
  }

  /** The inputs of one `create_security_token` call, with the passphrase the operator would type. */
  datatype Session = Session(gpg: Gpg, passphrase: Bytes, login: Bytes, gooddataUser: Bytes,
                             customerUser: Bytes, validity: int)

  function FirstRequest(s: Session): SignRequest {
    SignRequest(Payload(s.login, s.validity), s.customerUser, false, None)
  }

  function RetryRequest(s: Session): SignRequest {
    SignRequest(Payload(s.login, s.validity), s.customerUser, false, Some(s.passphrase))
  }

  /**
   Where a run stands: before signing, after the first signature, holding the
   signature to check and encrypt, or finished with the token or an error.
   */
  datatype Stage =
    | Start
    | Signed(first: GpgResult)
    | Checking(signed: GpgResult)
    | Finished(outcome: Result<Bytes, TokenError>)

  datatype Machine = Machine(stage: Stage, calls: seq<Call>)

  function Rank(stage: Stage): nat {
    match stage
    case Start => 3
    case Signed(_) => 2
    case Checking(_) => 1
    case Finished(_) => 0
  }

  /** One step of the run; each step only appends to the calls made so far. */
  function Step(s: Session, m: Machine): (next: Machine)
    requires !m.stage.Finished?
    ensures Rank(next.stage) < Rank(m.stage)
    ensures m.calls <= next.calls
  {
    match m.stage
    case Start =>
      var request := FirstRequest(s);
      Machine(Signed(s.gpg.sign(request)), m.calls + [Sign(request)])
    case Signed(first) =>
      if NeedsPassphrase(first.stderr) then
        var request := RetryRequest(s);
        Machine(Checking(s.gpg.sign(request)), m.calls + [PromptPassphrase, Sign(request)])
      else
        Machine(Checking(first), m.calls)
    case Checking(signed) =>
      if |signed.data| == 0 then
        Machine(Finished(Failure(SignedEmpty(signed.stderr))), m.calls)
      else
        var request := EncryptRequest(signed.data, s.gooddataUser, true);
        var encrypted := s.gpg.encrypt(request);
        var outcome := if |encrypted.data| == 0 then Failure(EncryptedEmpty(encrypted.stderr))
                       else Success(encrypted.data);
        Machine(Finished(outcome), m.calls + [Encrypt(request)])
  }

  /** Steps until the run is finished. */
  function Run(s: Session, m: Machine): (last: Machine)
    ensures last.stage.Finished?
    ensures m.calls <= last.calls
    decreases Rank(m.stage)
  {
    if m.stage.Finished? then m else Run(s, Step(s, m))
  }

  /** The signing requests among `calls`, in order. */
  function SignRequests(calls: seq<Call>): seq<SignRequest> {
    if |calls| == 0 then []
    else (if calls[0].Sign? then [calls[0].signRequest] else []) + SignRequests(calls[1..])
  }

  /** The encryption requests among `calls`, in order. */
  function EncryptRequests(calls: seq<Call>): seq<EncryptRequest> {
    if |calls| == 0 then []
    else (if calls[0].Encrypt? then [calls[0].encryptRequest] else []) + EncryptRequests(calls[1..])
  }

  /**
   `create_security_token`: the run from the start until it finishes. It
   always finishes, after between one and four calls, the first of which is
   the passphrase-less signing; a token it returns is never empty.
   */
  function CreateSecurityToken(s: Session): (m: Machine)
    ensures m.stage.Finished?
    ensures 1 <= |m.calls| <= 4 && m.calls[0] == Sign(FirstRequest(s))
    ensures m.stage.outcome.Success? ==> |m.stage.outcome.value| > 0
  {
    var m1 := Step(s, Machine(Start, []));
    var m2 := Step(s, m1);
    assert Run(s, Machine(Start, [])) == Run(s, m2) == Step(s, m2);
    Run(s, Machine(Start, []))
  }

  /**
   The decision flow of `create_security_token`. Signing happens once, and a
   second time exactly when the first attempt's stderr mentions
   NEED_PASSPHRASE; the operator is prompted just before that second attempt,
   which carries the passphrase, and its result replaces the first. The last
   signature is checked: an empty one aborts with its stderr and nothing is
   encrypted. Otherwise it is encrypted once for the recipient with full
   trust; an empty ciphertext aborts with its stderr, and any other
   ciphertext is the token. The trace holds exactly these calls: the prompt
   appears only before the second attempt.
   */
  lemma CreateSecurityTokenFlow(s: Session)
    ensures CreateSecurityToken(s).stage.Finished?
    ensures var m := CreateSecurityToken(s);
      var signs := SignRequests(m.calls);
      && 1 <= |signs| <= 2
      && signs[0] == FirstRequest(s)
      && m.calls[0] == Sign(signs[0])
      && (|signs| == 2 <==> NeedsPassphrase(s.gpg.sign(signs[0]).stderr))
      && (|signs| == 2 ==> signs[1] == RetryRequest(s) && m.calls[..3] == [Sign(signs[0]), PromptPassphrase, Sign(signs[1])])
    ensures var m := CreateSecurityToken(s);
      var signs := SignRequests(m.calls);
      var signed := s.gpg.sign(signs[|signs| - 1]);
      && (|signed.data| == 0 ==> m.stage.outcome == Failure(SignedEmpty(signed.stderr)) && EncryptRequests(m.calls) == [])
      && (|signed.data| > 0 ==> EncryptRequests(m.calls) == [EncryptRequest(signed.data, s.gooddataUser, true)])
    ensures var m := CreateSecurityToken(s);
      forall request | request in EncryptRequests(m.calls) ::
        var encrypted := s.gpg.encrypt(request);
        m.stage.outcome == if |encrypted.data| == 0 then Failure(EncryptedEmpty(encrypted.stderr))
                           else Success(encrypted.data)
    ensures var m := CreateSecurityToken(s);
      m.stage.outcome.Success? ==> |m.stage.outcome.value| > 0
    ensures var m := CreateSecurityToken(s);
      var first := s.gpg.sign(FirstRequest(s));
      var signed := if NeedsPassphrase(first.stderr) then s.gpg.sign(RetryRequest(s)) else first;
      m.calls == (if NeedsPassphrase(first.stderr) then [Sign(FirstRequest(s)), PromptPassphrase, Sign(RetryRequest(s))]
                  else [Sign(FirstRequest(s))])
                 + (if |signed.data| > 0 then [Encrypt(EncryptRequest(signed.data, s.gooddataUser, true))] else [])
  {
    var m0 := Machine(Start, []);
    var m1 := Step(s, m0);
    var m2 := Step(s, m1);
    var m3 := Step(s, m2);
    assert Run(s, m0) == Run(s, m1) == Run(s, m2) == Run(s, m3) == m3;
    SigningSteps(s);
    CheckingStep(s, m2);
  }

  /** The first two steps: the signing attempts, and nothing encrypted yet. */
  lemma SigningSteps(s: Session)
    ensures var m2 := Step(s, Step(s, Machine(Start, [])));
      var first := s.gpg.sign(FirstRequest(s));
      && m2.calls[0] == Sign(FirstRequest(s))
      && EncryptRequests(m2.calls) == []
      && (NeedsPassphrase(first.stderr) ==>
            && m2.calls == [Sign(FirstRequest(s)), PromptPassphrase, Sign(RetryRequest(s))]
            && SignRequests(m2.calls) == [FirstRequest(s), RetryRequest(s)]
            && m2.stage == Checking(s.gpg.sign(RetryRequest(s))))
      && (!NeedsPassphrase(first.stderr) ==>
            && m2.calls == [Sign(FirstRequest(s))]
            && SignRequests(m2.calls) == [FirstRequest(s)]
            && m2.stage == Checking(first))
  {
    var m1 := Step(s, Machine(Start, []));
    assert m1.calls == [Sign(FirstRequest(s))];
    assert SignRequests(m1.calls) == [FirstRequest(s)];
    assert EncryptRequests(m1.calls) == [];
    if NeedsPassphrase(m1.stage.first.stderr) {
      SignAndEncryptAppend(m1.calls, PromptPassphrase);
      SignAndEncryptAppend(m1.calls + [PromptPassphrase], Sign(RetryRequest(s)));
      assert Step(s, m1).calls == m1.calls + [PromptPassphrase] + [Sign(RetryRequest(s))];
    }
  }

  /** The last step: check the signature, then encrypt it and check the ciphertext. */
  lemma CheckingStep(s: Session, m: Machine)
    requires m.stage.Checking?
    ensures var next := Step(s, m);
      var signed := m.stage.signed;
      && SignRequests(next.calls) == SignRequests(m.calls)
      && next.calls[..|m.calls|] == m.calls
      && (|signed.data| == 0 ==>
            next.stage == Finished(Failure(SignedEmpty(signed.stderr))) && next.calls == m.calls)
      && (|signed.data| > 0 ==>
            var request := EncryptRequest(signed.data, s.gooddataUser, true);
            var encrypted := s.gpg.encrypt(request);
            && next.calls == m.calls + [Encrypt(request)]
            && EncryptRequests(next.calls) == EncryptRequests(m.calls) + [request]
            && next.stage.outcome == if |encrypted.data| == 0 then Failure(EncryptedEmpty(encrypted.stderr))
                                     else Success(encrypted.data))
  {
    var signed := m.stage.signed;
    if |signed.data| > 0 {
      SignAndEncryptAppend(m.calls, Encrypt(EncryptRequest(signed.data, s.gooddataUser, true)));
    }
  }

  lemma SignAndEncryptAppend(calls: seq<Call>, c: Call)
    ensures SignRequests(calls + [c]) == SignRequests(calls) + SignRequests([c])
    ensures EncryptRequests(calls + [c]) == EncryptRequests(calls) + EncryptRequests([c])
  {
    if |calls| > 0 {
      assert (calls + [c])[1..] == calls[1..] + [c];
      SignAndEncryptAppend(calls[1..], c);
    }
  }

  /**
   There is no third attempt: when the retry reports NEED_PASSPHRASE again,
   its result is still the one checked, and an empty one aborts.
   */
  lemma NoThirdAttempt(s: Session)
    ensures var retry := s.gpg.sign(RetryRequest(s));
      NeedsPassphrase(s.gpg.sign(FirstRequest(s)).stderr) && NeedsPassphrase(retry.stderr) ==>
        && SignRequests(CreateSecurityToken(s).calls) == [FirstRequest(s), RetryRequest(s)]
        && (|retry.data| == 0 ==> CreateSecurityToken(s).stage.outcome == Failure(SignedEmpty(retry.stderr)))
  {
    CreateSecurityTokenFlow(s);
  }
}

=== FILE: url.dfy ===
/**
 `generate_url`: the destination and the customer resource are copied as
 they are, then a query string with `sessionId`, `serverURL` and `targetURL`
 in that order, each value passed through `quote`.
 */
module SsoUrl {
  import opened Wrappers
  import opened ByteString
  import opened UrlQuote

  const Question: byte := Byte('?')
  const Ampersand: byte := Byte('&')
  const Equals: byte := Byte('=')
  const Hash: byte := Byte('#')

  const SessionIdKey: Bytes := Ascii("sessionId")
  const ServerUrlKey: Bytes := Ascii("serverURL")
  const TargetUrlKey: Bytes := Ascii("targetURL")

  /** What a redirect URL carries: its base and the three decoded query values. */
  datatype SsoLink = SsoLink(base: Bytes, sessionId: Bytes, serverUrl: Bytes, targetUrl: Bytes)

  /**
   `generate_url`: the base `destination + resource`, a `?`, and the query.
   The lemma `GenerateUrlTemplate` shows this is the source's format string.
   */
  function GenerateUrl(destination: Bytes, resource: Bytes, serverUrl: Bytes, targetUrl: Bytes,
                       token: Bytes): (url: Bytes)
    ensures |destination + resource| < |url|
    ensures url[..|destination + resource|] == destination + resource
    ensures LastIndexOf(url, Question) == Some(|destination + resource|)
    ensures Hash !in url[|destination + resource|..]
  {
    var base := destination + resource;
    var query := QueryString(token, serverUrl, targetUrl);
    UrlShape(base, query);
    base + [Question] + query
  }

  /** A query free of `?` and `#` leaves the base in front and starts at the last `?`. */
  lemma UrlShape(base: Bytes, query: Bytes)
    requires Question !in query && Hash !in query
    ensures (base + [Question] + query)[..|base|] == base
    ensures LastIndexOf(base + [Question] + query, Question) == Some(|base|)
    ensures Hash !in (base + [Question] + query)[|base|..]
  {
    var rest := [Question] + query;
    assert base + [Question] + query == base + rest;
    SplitConcat(base, rest);
    assert Hash !in rest;
    LastIndexOfSeparator(base, Question, query);
  }

  /** One `key=value` query field. */
  function Field(key: Bytes, value: Bytes): Bytes {
    key + [Equals] + value
  }

  /** The bytes of a field name: always-safe bytes only, so quoting leaves it alone. */
  predicate IsKey(key: Bytes) {
    forall i | 0 <= i < |key| :: IsAlwaysSafe(key[i])
  }

  lemma KeysAreLetters()
    ensures IsKey(SessionIdKey) && IsKey(ServerUrlKey) && IsKey(TargetUrlKey)
  {
  }

  lemma FieldHasNoDelimiters(key: Bytes, value: Bytes)
    requires IsKey(key)
    ensures Question !in Field(key, Quote(value))
    ensures Ampersand !in Field(key, Quote(value))
    ensures Hash !in Field(key, Quote(value))
  {
    QuoteHasNoDelimiters(value);
  }

  /** The query after `?`: three fields joined by `&`, none of which holds `?`, `&` or `#`. */
  function QueryString(token: Bytes, serverUrl: Bytes, targetUrl: Bytes): (query: Bytes)
    ensures Question !in query && Hash !in query
    ensures Split(query, Ampersand) ==
      [Field(SessionIdKey, Quote(token)), Field(ServerUrlKey, Quote(serverUrl)),
       Field(TargetUrlKey, Quote(targetUrl))]
  {
    var f0 := Field(SessionIdKey, Quote(token));
    var f1 := Field(ServerUrlKey, Quote(serverUrl));
    var f2 := Field(TargetUrlKey, Quote(targetUrl));
    KeysAreLetters();
    FieldHasNoDelimiters(SessionIdKey, token);
    FieldHasNoDelimiters(ServerUrlKey, serverUrl);
    FieldHasNoDelimiters(TargetUrlKey, targetUrl);
    SplitWithout(f2, Ampersand);
    SplitAtSeparator(f1, Ampersand, f2);
    var tail := f1 + [Ampersand] + f2;
    SplitAtSeparator(f0, Ampersand, tail);
    f0 + [Ampersand] + tail
  }

  /**
   The URL is exactly the source's template
   `destination resource ?sessionId= q(token) &serverURL= q(serverUrl) &targetURL= q(targetUrl)`.
   */
  lemma GenerateUrlTemplate(destination: Bytes, resource: Bytes, serverUrl: Bytes, targetUrl: Bytes,
                            token: Bytes)
    ensures GenerateUrl(destination, resource, serverUrl, targetUrl, token)
      == destination + resource + Ascii("?sessionId=") + Quote(token)
         + Ascii("&serverURL=") + Quote(serverUrl) + Ascii("&targetURL=") + Quote(targetUrl)
  {
    LiteralFields();
    TemplateShape(destination + resource, SessionIdKey, ServerUrlKey, TargetUrlKey,
                  Quote(token), Quote(serverUrl), Quote(targetUrl));
  }

  /** Regrouping of the concatenation behind `GenerateUrlTemplate`. */
  lemma TemplateShape(base: Bytes, k0: Bytes, k1: Bytes, k2: Bytes, q0: Bytes, q1: Bytes, q2: Bytes)
    ensures base + [Question] + (Field(k0, q0) + [Ampersand] + (Field(k1, q1) + [Ampersand] + Field(k2, q2)))
      == base + ([Question] + k0 + [Equals]) + q0 + ([Ampersand] + k1 + [Equals]) + q1
         + ([Ampersand] + k2 + [Equals]) + q2
  {
  }

  /** The template's literal pieces are the separators and keys of the three fields. */
  lemma LiteralFields()
    ensures Ascii("?sessionId=") == [Question] + SessionIdKey + [Equals]
    ensures Ascii("&serverURL=") == [Ampersand] + ServerUrlKey + [Equals]
    ensures Ascii("&targetURL=") == [Ampersand] + TargetUrlKey + [Equals]
  {
  }

  /** The value of field `key`, if `field` is one. */
  function FieldValue(field: Bytes, key: Bytes): Option<Bytes> {
    StripPrefix(key + [Equals], field)
  }

  /**
   Reads a redirect URL back: the query starts after the last `?`, holds
   exactly the fields `sessionId`, `serverURL` and `targetURL` in this order,
   and each value percent-decodes.
   */
  function ParseUrl(url: Bytes): Option<SsoLink> {
    var k :- LastIndexOf(url, Question);
    var fields := Split(url[k + 1..], Ampersand);
    if |fields| != 3 then None
    else
      var sessionId :- FieldValue(fields[0], SessionIdKey);
      var serverUrl :- FieldValue(fields[1], ServerUrlKey);
      var targetUrl :- FieldValue(fields[2], TargetUrlKey);
      var token :- PercentDecode(sessionId);
      var server :- PercentDecode(serverUrl);
      var target :- PercentDecode(targetUrl);
      Some(SsoLink(url[..k], token, server, target))
  }

  lemma FieldValueOf(key: Bytes, value: Bytes)
    ensures FieldValue(Field(key, value), key) == Some(value)
  {
    StripPrefixOf(key + [Equals], value);
  }

  /**
   A generated URL reads back as its base `destination + resource` and the
   token, server URL and target URL it was built from, in the fixed order.
   */
  lemma ParseGenerateUrl(destination: Bytes, resource: Bytes, serverUrl: Bytes, targetUrl: Bytes,
                         token: Bytes)
    ensures ParseUrl(GenerateUrl(destination, resource, serverUrl, targetUrl, token))
      == Some(SsoLink(destination + resource, token, serverUrl, targetUrl))
  {
    var base := destination + resource;
    var query := QueryString(token, serverUrl, targetUrl);
    var url := GenerateUrl(destination, resource, serverUrl, targetUrl, token);
    SplitConcat(base + [Question], query);
    FieldValueOf(SessionIdKey, Quote(token));
    FieldValueOf(ServerUrlKey, Quote(serverUrl));
    FieldValueOf(TargetUrlKey, Quote(targetUrl));
    DecodeQuote(token);
    DecodeQuote(serverUrl);
    DecodeQuote(targetUrl);
  }
}

=== FILE: wrappers.dfy ===
/**
 An optional value whose `None` short-circuits a `:-` let, so the parsers can
 stop at the first piece that does not match; and the outcome of an operation
 that either yields a value or names what went wrong.
 */
module Wrappers {

  datatype Option<+T> = None | Some(value: T) {
    predicate IsFailure() {
      None?
    }

    function PropagateFailure<U>(): Option<U>
      requires None?
    {
      None
    }

    function Extract(): T
      requires Some?
    {
      value
    }
  }

  datatype Result<+R, +E> = Success(value: R) | Failure(error: E)
}
